=== FILE: README.md ===
# Turkish market newsletter: ranking and tagging pipeline in Dafny

This project models the news pipeline of the Turkish market newsletter
dashboard (`app.py`). The pipeline has these steps:

- It collects articles from three RSS feeds and keeps only those published in
  the last 18 hours.
- It scores each article. A "high" keyword adds 3, a "medium" keyword adds 1
  and a trusted source adds 2. A recency bonus that fades over three hours is
  added last.
- It stable-sorts the articles by score, highest first, and keeps the top `n`.
- It explains each selected article with a first-match rule list over the
  title.
- It tags each article with sectors, falling back to Broad Market.
- It turns the sentiment of the selected articles into a heat label per
  sector.
- It picks the direction word of the market summary from the sign of the
  index change.

Modules, one file each:

- `Wrappers` (`wrappers.dfy`): `Option`, for feed fields that may be missing.
- `Seqs` (`seqs.dfy`): the duplicate-free predicate shared by the keyword
  lists and the sector tags.
- `Text` (`text.dfy`): lower-casing, Python's substring test `kw in text`,
  and `any(kw in text for kw in kws)`.
- `News` (`news.dfy`): the article and feed-entry records and the 18-hour
  filter of `fetch_news`.
- `Scoring` (`scoring.dfy`): `score_news`.
- `Selection` (`selection.dfy`): `select_top_news`. The sort is a stable
  insertion sort.
- `Narrative` (`narrative.dfy`): `why_this_matters` and the direction and
  size of the change in `generate_market_summary`.
- `Sectors` (`sectors.dfy`): `sector_impact` and `sector_heat`.

Representation choices:

- Text is `string` (a sequence of Unicode scalar values).
- Clock readings and publish times are integer seconds. They are passed in
  as parameters. `score_news` reads the clock itself, once per article, so
  `select_top_news` takes one reading per article (`clocks[i]` for
  `articles[i]`); two articles can therefore be scored at different readings.
- Scores are exact `real`s.
- The score's age is `(now - published).seconds`, which Python normalises to
  the remainder within one day. The model computes it as
  `(now - published) % 86400`: Dafny's `%` is Euclidean and agrees with that
  normalisation for every sign.

The model keeps these behaviours of the code:

- An article dated up to 21 hours in the future looks between 3 and 24 hours
  old, so it gets no recency bonus (`Scoring.FutureDatedArticleGetsNoBonus`).
  Further in the future the age wraps around again: 23 hours ahead looks one
  hour old.
- A change of exactly 0 is reported with the falling word "düşüşle".
- A negative `n` follows Python's slice `articles[:n]`.
- An article that has both a positive and a negative word has sentiment 0.

A Bigpara article titled "TCMB faiz kararı" with an empty summary, published
now, scores 3 + 3 + 3 = 9: both "tcmb" and "faiz" are high keywords, and the
recency bonus is full (`Scoring.ScoreDecomposition`).

## Model

| member | source | states |
|---|---|---|
| `Text.Lower` | app.py:88 | `str.lower()`: no capital letter is left, and the result is at least as long as the input and at most twice as long (dotted İ becomes two characters) |
| `Text.LowerAppend` | app.py:88 | lower-casing `title + " " + summary` is the same as lower-casing each part and concatenating |
| `Text.LowerIdempotent` | app.py:127 | lower-casing an already lower-cased text changes nothing |
| `Text.ContainsIffOccurs` | app.py:91 | the position-by-position test `kw in text` holds exactly when some start index carries an occurrence of `kw` |
| `Text.ContainsInConcat` | app.py:145 | a keyword found in one part of a concatenation is found in the whole |
| `Text.ContainsTransitive` | app.py:129 | if `mid` occurs in `text` and `kw` occurs in `mid`, then `kw` occurs in `text` |
| `Text.ContainsAnyIff` | app.py:129 | `any(k in text for k in kws)` holds exactly when some listed keyword occurs in the text |
| `News.TitleInText` | app.py:145 | a keyword in the lower-cased title is also in the lower-cased title-plus-summary text |
| `News.ToArticle` | app.py:56-67 | an entry keeps its title and summary and gets its feed's source; a missing summary becomes "" and a missing publish time becomes the current time |
| `News.RecentEntries` | app.py:55-67 | every article kept from a feed carries that feed's source, passes `published >= now - 18h`, and there are no more articles than entries |
| `News.RecentEntriesMembership` | app.py:51-67 | an article is kept exactly when some entry of the feed yields it and its publish time passes the cutoff |
| `News.RecentEntriesSingle` | app.py:55-67 | one entry yields its article when its publish time passes the cutoff and nothing otherwise |
| `News.RecentEntriesAppend` | app.py:55-67 | the entries are walked in feed order: the articles kept from `e1 + e2` are those kept from `e1` followed by those kept from `e2` |
| `News.EntryAtCutoffKept` | app.py:61 | the cutoff is inclusive: an entry published exactly 18 hours before `now` is kept |
| `News.UndatedEntryKept` | app.py:56-61 | an entry without a publish time is always kept |
| `News.FetchNews` | app.py:49-68 | every collected article passes the 18-hour cutoff, there are no more articles than entries, and the articles come feed by feed in `RSS_FEEDS` order: Bigpara, then BloombergHT, then ReutersTR (the order within a feed is stated by `News.FetchNewsPerFeed`) |
| `News.FetchNewsPerFeed` | app.py:53-67 | each feed's articles appear in the collected list exactly as that feed's filter yields them: every kept entry, once, in feed order; with the feed-by-feed order of `FetchNews` this fixes the whole result |
| `News.FetchNewsMembership` | app.py:49-68 | an article is collected exactly when it passes the cutoff and some entry of one of the three feeds yields it with that feed as its source |
| `Scoring.KeywordListsDistinct` | app.py:34-37 | neither lowered keyword list names a keyword twice |
| `Scoring.TimedeltaSeconds` | app.py:101 | `.seconds` is a remainder in [0, 86400) that differs from the signed difference by whole days |
| `Scoring.Elapsed` | app.py:101 | the age used by the score is always below one day |
| `Scoring.RecencyBonus` | app.py:101-102 | `max(0, 3 - hours_old)` lies in [0, 3], is 0 exactly from three hours of age on, and is 3 at age 0 |
| `Scoring.RecencyBonusNonIncreasing` | app.py:101-102 | an older age never gets a larger bonus |
| `Scoring.ElapsedWithinADay` | app.py:101 | for an article published less than a day before `now`, the age is the true age |
| `Scoring.FutureDatedArticleGetsNoBonus` | app.py:101-102 | an article dated up to 21 hours in the future gets age `86400 - (published - now)` and no recency bonus |
| `Scoring.KeywordPoints` | app.py:90-96 | one keyword loop adds at most weight × number of keywords |
| `Scoring.PointsCountDistinctHits` | app.py:90-96 | with a duplicate-free list, one keyword loop adds the weight times the number of distinct keywords present, each counted once however often it occurs |
| `Scoring.Score` | app.py:86-104 | every score lies in [0, 32], where 32 = 3·7 + 1·6 + 2 + 3 |
| `Scoring.ScoreDecomposition` | app.py:86-104 | the score is 3 × distinct high keywords present + 1 × distinct medium keywords present + 2 if the source is ReutersTR or BloombergHT + the recency bonus of the `.seconds` age; at most 7 high and 6 medium hits |
| `Scoring.ScoreDependsOnTextSourceAge` | app.py:86-104 | two articles with the same lower-cased text, the same source and the same age get the same score |
| `Selection.AttachScores` | app.py:108-109 | each article, in input order, is paired with its own `score_news` value at the clock reading taken for it |
| `Selection.Insert` | app.py:110 | inserting adds exactly the one record: the length grows by one and the multiset gains `x` |
| `Selection.InsertSorted` | app.py:110 | inserting into a list sorted highest first keeps it sorted |
| `Selection.InsertionSort` | app.py:110 | the sort returns a permutation of its input (same length and multiset) with non-increasing scores |
| `Selection.InsertWithScore` | app.py:110 | the inserted record goes in front of every record of its own score and changes no other score's records |
| `Selection.InsertionSortStable` | app.py:110 | for every score, the records with that score come out in their input order |
| `Selection.InsertionSortIsStableDescSort` | app.py:110 | the insertion sort meets Python's guarantee for `sort(key=..., reverse=True)`: sorted highest first and stable |
| `Selection.StableSortsAgree` | app.py:110 | two lists sorted highest first with the same records of every score in the same order are equal, so every stable sort gives the same result |
| `Selection.PyTake` | app.py:111 | `s[:n]` is a prefix of `s` with `min(n, len(s))` items for `n >= 0` and `max(0, len(s) + n)` items for negative `n` |
| `Selection.SelectTop` | app.py:107-111 | returns `min(n, len(articles))` records for `n >= 0`, sorted by score highest first, drawn from the scored input without repetition beyond the input's |
| `Selection.DefaultSelectionSize` | app.py:107-111 | with the default `n = 3`, at most three records come back, and exactly three when there are at least three articles |
| `Selection.SelectTopRecordsFromInput` | app.py:108-111 | every returned record is an input article carrying the `score_news` value of that article at its own clock reading |
| `Selection.SelectTopIsFrontOfStableSort` | app.py:110-111 | the result is the first `n` of any stable descending sort of the scored input |
| `Selection.SelectTopKeepsInputOrder` | app.py:110-111 | for each score, the returned records with that score are a leading part, in input order, of the input's records with that score |
| `Selection.SelectTopOmitsNoHigher` | app.py:110-111 | no record left out scores higher than any record returned |
| `Narrative.RuleFor` | app.py:126-141 | first match wins over the lower-cased title: monetary if a monetary keyword occurs; otherwise earnings if an earnings keyword occurs; then global macro; then commodity; the general rule exactly when none occurs |
| `Narrative.WhyThisMatters` | app.py:126-141 | the returned text is the sentence of the rule that fires, so always one of the five fixed sentences |
| `Narrative.WhyThisMattersReadsTitleOnly` | app.py:127 | two articles with the same title get the same sentence, whatever their summaries |
| `Narrative.MarketSummary` | app.py:117-123 | "yükselişle" exactly when the change is > 0 and "düşüşle" exactly when it is <= 0 (zero included); the printed change is its absolute value |
| `Narrative.SummaryRecoversChange` | app.py:118-120 | for a nonzero change, the direction word and the printed size together give back the signed change |
| `Sectors.SectorImpact` | app.py:144-155 | never empty; `["Broad Market"]` exactly when no group matches title + summary; otherwise each of Banking, Industrial, Energy is present exactly when its group matches, in that order, with no duplicates |
| `Sectors.TagsDistinct` | app.py:144-155 | no sector tag appears twice |
| `Sectors.MonetaryRationaleImpliesBanking` | app.py:129-148 | an article whose rationale is monetary policy is always tagged Banking ("merkez bankası" contains "banka") |
| `Sectors.Sentiment` | app.py:160-165 | sentiment is in {-1, 0, +1}: +1 with only positive words, -1 with only negative words, 0 with both or neither |
| `Sectors.AddToTags` | app.py:166-168 | the inner loop never adds or removes a sector key |
| `Sectors.Accumulate` | app.py:163-168 | the loop over articles never adds or removes a sector key, so Broad Market never gets a total |
| `Sectors.AddToTagsEffect` | app.py:166-168 | with duplicate-free tags, each tagged sector that has a total gains the sentiment once and every other total is unchanged |
| `Sectors.AccumulateEffect` | app.py:163-168 | after the loop, each total has grown by the sum of the sentiments of the articles tagged with that sector |
| `Sectors.DisplaysDistinct` | app.py:172 | the three label texts "🔥 Positive", "❄️ Negative" and "➖ Neutral" are pairwise different |
| `Sectors.Label` | app.py:172 | Positive exactly when the total is > 0, Negative exactly when < 0, Neutral exactly when = 0 |
| `Sectors.SectorHeat` | app.py:158-173 | the keys are exactly Banking, Industrial and Energy, and each label is the sign label of the summed sentiment of the articles tagged with that sector |
| `Sectors.UntaggedSectorIsNeutral` | app.py:158-173 | a sector that no selected article is tagged with is labelled Neutral |

## Left out

- The feed download (`feedparser.parse`) and the quote download
  (`yfinance`) in `fetch_news` and `get_market_data`: both are network I/O.
  The feeds enter the model as their parsed entries, and the market figures
  as a `MarketSnapshot` record.
- The 15-minute result cache (`st.cache_data(ttl=900)`): it is a runtime
  service. The fetch and the scoring therefore take their own clock readings
  as separate parameters.
- `export_docx` and `export_pdf`: they are thin wrappers over the
  python-docx and fpdf libraries plus file writes.
- The Streamlit UI block, including the "Market Mood" metric: it is
  presentation only.
- Floating point: scores, the recency bonus and the market figures are exact
  reals. Python's float rounding of `seconds / 3600` and of the sums is not
  modelled. Two articles whose exact scores differ by a rounding error could
  tie, or stop tying, in floating point.
- The rounding in `get_market_data` and the number formatting in
  `generate_market_summary`: the model returns the values the sentence
  prints, not the formatted sentence.
- Sub-second clock precision: clock readings and publish times are whole
  seconds. Dated entries come from `published_parsed[:6]` and are whole
  seconds. The microseconds of the `datetime.now()` readings are not modelled.
- `News.ToArticle`: stamps an undated entry with the cutoff's reading
  (app.py:51), taken before any feed is downloaded. The code stamps it with
  its own `datetime.now()` reading (app.py:59), taken after this feed and
  every earlier feed are downloaded. The entry is kept either way
  (`News.UndatedEntryKept`). Its modelled age, however, is too large by the
  time between the two readings, so its recency bonus is too low by that time
  divided by 3600. Ties and the order of the selected articles can therefore
  differ from the code for undated entries.
- An entry without a title: `entry.title` (app.py:63) raises and aborts
  `fetch_news`, and with it the whole run. `FeedEntry` always carries a title,
  so the model does not represent this failure.
- Time zones: the feed's publish time and the local clock are taken to be on
  the same clock.
- `Text.Lower`: covers ASCII, the Latin-1 capitals and the Turkish capitals
  Ğ, Ş and İ. Every other character is left unchanged, where Python applies
  the full Unicode case mapping.
- `Scoring.ScoreDecomposition`: the two keyword lists are written in their
  lower-cased form ("TCMB" as "tcmb"). The model does not evaluate
  `kw.lower()` on the source spelling.
- Worked examples on concrete headlines are not stated as lemmas. All
  properties are stated for all inputs.
- The in-place effects of `select_top_news`: it sorts the caller's list and
  adds a `"score"` key to each dict. The model returns new `Scored` records;
  no caller reads the reordered list afterwards.
- `Sectors.SectorHeat`: takes the selected articles without their scores,
  since `sector_heat` reads only the title and summary.

=== FILE: narrative.dfy ===
/** The sentences the newsletter writes: the "why this matters" rationale of
    an article (app.py `why_this_matters`) and the direction phrase of the
    market summary (app.py `generate_market_summary`). */
module Narrative {
  import opened Text
  import opened News

  /** The four keyword groups of the rationale rules, in priority order. */
  const MonetaryTerms: seq<string> := ["faiz", "tcmb", "merkez bankası"]
  const EarningsTerms: seq<string> := ["bilanço", "kar", "zarar"]
  const GlobalMacroTerms: seq<string> := ["fed", "abd", "enflasyon"]
  const CommodityTerms: seq<string> := ["petrol", "emtia", "altın"]

  /** Which rule of the list fired. */
  datatype Rationale = MonetaryPolicy | Earnings | GlobalMacro | Commodity | General {

    /** The sentence each rule returns. */
    function Sentence(): string
    {
      match this
      case MonetaryPolicy =>
        "Para politikası adımları, özellikle bankacılık sektörü olmak üzere tüm piyasa değerlemelerini etkiler."
      case Earnings =>
        "Finansal sonuçlar, şirketin operasyonel gücünü ve mevcut fiyatlamaların sürdürülebilirliğini gösterir."
      case GlobalMacro =>
        "Küresel makro gelişmeler, gelişen piyasalara yönelik risk iştahını ve sermaye akımlarını belirler."
      case Commodity =>
        "Emtia fiyatları, enflasyon beklentileri ve ilgili sektörler üzerinde belirleyici rol oynar."
      case General =>
        "Bu gelişme, yatırımcı algısı ve piyasa beklentileri açısından önem taşıyor."
    }
  }

  /** The rule that fires for a title: the first one, in priority order,
      whose group has a keyword in the lower-cased title. A rule fires exactly
      when its group is mentioned and no earlier group is. */
  function RuleFor(title: string): (r: Rationale)
    ensures r == MonetaryPolicy <==> Mentions(Lower(title), MonetaryTerms)
    ensures r == Earnings
        <==> !Mentions(Lower(title), MonetaryTerms) && Mentions(Lower(title), EarningsTerms)
    ensures r == GlobalMacro
        <==> !Mentions(Lower(title), MonetaryTerms) && !Mentions(Lower(title), EarningsTerms)
             && Mentions(Lower(title), GlobalMacroTerms)
    ensures r == Commodity
        <==> !Mentions(Lower(title), MonetaryTerms) && !Mentions(Lower(title), EarningsTerms)
             && !Mentions(Lower(title), GlobalMacroTerms) && Mentions(Lower(title), CommodityTerms)
    ensures r == General
        <==> !Mentions(Lower(title), MonetaryTerms) && !Mentions(Lower(title), EarningsTerms)
             && !Mentions(Lower(title), GlobalMacroTerms) && !Mentions(Lower(title), CommodityTerms)
  {
    var t := Lower(title);
    ContainsAnyIff(t, MonetaryTerms);
    ContainsAnyIff(t, EarningsTerms);
    ContainsAnyIff(t, GlobalMacroTerms);
    ContainsAnyIff(t, CommodityTerms);
    if ContainsAny(t, MonetaryTerms) then MonetaryPolicy
    else if ContainsAny(t, EarningsTerms) then Earnings
    else if ContainsAny(t, GlobalMacroTerms) then GlobalMacro
    else if ContainsAny(t, CommodityTerms) then Commodity
    else General
  }

  /** `why_this_matters(news)`: the sentence of the rule that fires for the
      title; always one of the five fixed sentences. */
  function WhyThisMatters(a: Article): (s: string)
    ensures exists r: Rationale :: s == r.Sentence()
    ensures s == RuleFor(a.title).Sentence()
  {
    RuleFor(a.title).Sentence()
  }

  /** Only the title is searched: two articles with the same title get the
      same sentence, whatever their summaries say. */
  lemma WhyThisMattersReadsTitleOnly(a: Article, b: Article)
    requires a.title == b.title
    ensures WhyThisMatters(a) == WhyThisMatters(b)
  {
  }

  /** The market figures `get_market_data` returns, already rounded. */
  datatype MarketSnapshot = MarketSnapshot(bistClose: real, bistChange: real, usdTry: real)

  const RisingWord: string := "yükselişle"
  const FallingWord: string := "düşüşle"

  /** The values `generate_market_summary` writes into its sentence: the size
      of the index change, the direction word, the close and the USD/TRY rate. */
  datatype SummaryParts = SummaryParts(changeSize: real, direction: string, close: real, usdTry: real)

  /** `generate_market_summary(market)` up to number formatting. A change of
      exactly zero is reported as a fall. */
  function MarketSummary(m: MarketSnapshot): (p: SummaryParts)
    ensures p.direction == RisingWord <==> m.bistChange > 0.0
    ensures p.direction == FallingWord <==> m.bistChange <= 0.0
    ensures p.changeSize >= 0.0
    ensures p.changeSize == m.bistChange || p.changeSize == -m.bistChange
    ensures m.bistChange > 0.0 ==> m.bistChange == p.changeSize
    ensures m.bistChange < 0.0 ==> m.bistChange == -p.changeSize
    ensures p.close == m.bistClose && p.usdTry == m.usdTry
  {
    var direction := if m.bistChange > 0.0 then RisingWord else FallingWord;
    var size := if m.bistChange < 0.0 then -m.bistChange else m.bistChange;
    SummaryParts(size, direction, m.bistClose, m.usdTry)
  }

  /** Except at zero, the direction word and the unsigned size together give
      back the signed change. */
  lemma SummaryRecoversChange(m: MarketSnapshot)
    requires m.bistChange != 0.0
    ensures var p := MarketSummary(m);
            (if p.direction == RisingWord then p.changeSize else -p.changeSize) == m.bistChange
  {
  }
}

=== FILE: news.dfy ===
/** News records as the feeds deliver them, and the trailing 18-hour window
    applied while collecting them (app.py `fetch_news`). The feed download
    itself is outside the model: each feed arrives as its parsed entries. */
module News {
  import opened Wrappers
  import opened Text

  /** The three feeds of `RSS_FEEDS`, in their declaration order. */
  datatype Source = Bigpara | BloombergHT | ReutersTR

  /** A collected article. `published` is in whole seconds on the same
      local clock as the `now` values passed around the model. */
  datatype Article = Article(title: string, summary: string, source: Source, published: int)

  /** A parsed feed entry; the summary and the publish time may be missing. */
  datatype FeedEntry = FeedEntry(title: string, summary: Option<string>, published: Option<int>)

  const SecondsPerHour: int := 3600

  /** Length of the trailing window `fetch_news` keeps. */
  const WindowSeconds: int := 18 * SecondsPerHour

  /** The lower-cased text the keyword rules search: title, one space, summary. */
  function ArticleText(a: Article): string
  {
    Lower(a.title + " " + a.summary)
  }

  /** A keyword found in the lower-cased title is also found in the article text. */
  lemma TitleInText(a: Article, kw: string)
    requires Contains(Lower(a.title), kw)
    ensures Contains(ArticleText(a), kw)
  {
    assert a.title + " " + a.summary == a.title + (" " + a.summary);
    LowerAppend(a.title, " " + a.summary);
    ContainsInConcat(Lower(a.title), Lower(" " + a.summary), kw);
  }

  /** The record built from one entry: a missing summary becomes "", a missing
      publish time becomes the current time. */
  function ToArticle(source: Source, e: FeedEntry, now: int): (a: Article)
    ensures a.title == e.title && a.source == source
    ensures e.published.Some? ==> a.published == e.published.value
    ensures e.published.None? ==> a.published == now
    ensures e.summary.Some? ==> a.summary == e.summary.value
    ensures e.summary.None? ==> a.summary == ""
  {
    Article(e.title, e.summary.GetOr(""), source, e.published.GetOr(now))
  }

  /** Position of a feed in `RSS_FEEDS`, the order `fetch_news` walks them. */
  function FeedRank(s: Source): nat
  {
    match s
    case Bigpara => 0
    case BloombergHT => 1
    case ReutersTR => 2
  }

  /** The cutoff test `published >= cutoff`, with `cutoff = now - 18h`. */
  predicate InWindow(published: int, now: int)
  {
    published >= now - WindowSeconds
  }

  /** The entries of one feed that fall in the window, in feed order. */
  function RecentEntries(source: Source, entries: seq<FeedEntry>, now: int): (r: seq<Article>)
    ensures |r| <= |entries|
    ensures forall a :: a in r ==> a.source == source && InWindow(a.published, now)
  {
    if entries == [] then []
    else
      var a := ToArticle(source, entries[0], now);
      (if InWindow(a.published, now) then [a] else []) + RecentEntries(source, entries[1..], now)
  }

  /** One entry: its article when it falls in the window, nothing otherwise. */
  lemma RecentEntriesSingle(source: Source, e: FeedEntry, now: int)
    ensures RecentEntries(source, [e], now)
         == if InWindow(ToArticle(source, e, now).published, now) then [ToArticle(source, e, now)] else []
  {
    assert [e][1..] == [];
  }

  /** The filter walks the entries in feed order: the articles kept from a
      split feed are those kept from the first part followed by those kept
      from the second. With `RecentEntriesSingle` this fixes the result
      entirely. */
  lemma {:induction false} RecentEntriesAppend(source: Source, e1: seq<FeedEntry>, e2: seq<FeedEntry>, now: int)
    ensures RecentEntries(source, e1 + e2, now) == RecentEntries(source, e1, now) + RecentEntries(source, e2, now)
  {
    if e1 == [] {
      assert e1 + e2 == e2;
    } else {
      assert (e1 + e2)[0] == e1[0];
      assert (e1 + e2)[1..] == e1[1..] + e2;
      RecentEntriesAppend(source, e1[1..], e2, now);
    }
  }

  /** The boundary of the cutoff is inclusive: an entry published exactly 18
      hours before `now` is kept. */
  lemma EntryAtCutoffKept(source: Source, e: FeedEntry, now: int)
    requires e.published == Some(now - WindowSeconds)
    ensures RecentEntries(source, [e], now) == [ToArticle(source, e, now)]
  {
    RecentEntriesSingle(source, e, now);
  }

  /** An article is collected from a feed exactly when some entry of the feed
      yields it and that entry's publish time passes the cutoff. */
  lemma {:induction false} RecentEntriesMembership(source: Source, entries: seq<FeedEntry>, now: int, a: Article)
    ensures a in RecentEntries(source, entries, now)
        <==> exists i :: 0 <= i < |entries| && ToArticle(source, entries[i], now) == a && InWindow(a.published, now)
  {
    if entries != [] {
      RecentEntriesMembership(source, entries[1..], now, a);
      if i :| 1 <= i < |entries| && ToArticle(source, entries[i], now) == a && InWindow(a.published, now) {
        assert entries[1..][i - 1] == entries[i];
      }
      if a in RecentEntries(source, entries[1..], now) {
        var i :| 0 <= i < |entries[1..]| && ToArticle(source, entries[1..][i], now) == a && InWindow(a.published, now);
        assert entries[i + 1] == entries[1..][i];
      }
    }
  }

  /** An entry without a publish time is stamped "now" and therefore always kept. */
  lemma UndatedEntryKept(source: Source, entries: seq<FeedEntry>, now: int, i: int)
    requires 0 <= i < |entries| && entries[i].published.None?
    ensures ToArticle(source, entries[i], now) in RecentEntries(source, entries, now)
  {
    RecentEntriesMembership(source, entries, now, ToArticle(source, entries[i], now));
  }

  /** `fetch_news` after the download: the feeds are walked in `RSS_FEEDS`
      order and each contributes its in-window entries. */
  function FetchNews(bigpara: seq<FeedEntry>, bloombergHT: seq<FeedEntry>, reutersTR: seq<FeedEntry>, now: int): (r: seq<Article>)
    ensures |r| <= |bigpara| + |bloombergHT| + |reutersTR|
    ensures forall a :: a in r ==> InWindow(a.published, now)
    ensures forall i, j :: 0 <= i < j < |r| ==> FeedRank(r[i].source) <= FeedRank(r[j].source)
  {
    RecentEntries(Bigpara, bigpara, now) + RecentEntries(BloombergHT, bloombergHT, now)
      + RecentEntries(ReutersTR, reutersTR, now)
  }

  /** An article is collected exactly when it is in the window and some entry
      of one of the three feeds yields it, with that feed as its source. */
  lemma FetchNewsMembership(bigpara: seq<FeedEntry>, bloombergHT: seq<FeedEntry>, reutersTR: seq<FeedEntry>, now: int, a: Article)
    ensures a in FetchNews(bigpara, bloombergHT, reutersTR, now)
        <==> InWindow(a.published, now)
             && (|| (exists i :: 0 <= i < |bigpara| && ToArticle(Bigpara, bigpara[i], now) == a)
                 || (exists i :: 0 <= i < |bloombergHT| && ToArticle(BloombergHT, bloombergHT[i], now) == a)
                 || (exists i :: 0 <= i < |reutersTR| && ToArticle(ReutersTR, reutersTR[i], now) == a))
  {
    RecentEntriesMembership(Bigpara, bigpara, now, a);
    RecentEntriesMembership(BloombergHT, bloombergHT, now, a);
    RecentEntriesMembership(ReutersTR, reutersTR, now, a);
  }

  /** The articles of `s` that come from `src`, in their order in `s`. */
  function FromSource(s: seq<Article>, src: Source): seq<Article>
  {
    if s == [] then []
    else (if s[0].source == src then [s[0]] else []) + FromSource(s[1..], src)
  }

  lemma {:induction false} FromSourceAppend(a: seq<Article>, b: seq<Article>, src: Source)
    ensures FromSource(a + b, src) == FromSource(a, src) + FromSource(b, src)
  {
    if a == [] {
      assert a + b == b;
    } else {
      assert (a + b)[0] == a[0];
      assert (a + b)[1..] == a[1..] + b;
      FromSourceAppend(a[1..], b, src);
    }
  }

  /** Picking one source out of a list whose articles all come from that
      source keeps the whole list; picking another source keeps nothing. */
  lemma {:induction false} FromSourceUniform(s: seq<Article>, feed: Source, src: Source)
    requires forall a :: a in s ==> a.source == feed
    ensures FromSource(s, src) == if src == feed then s else []
  {
    if s != [] {
      assert s[0] in s;
      assert forall a :: a in s[1..] ==> a in s;
      FromSourceUniform(s[1..], feed, src);
      if src == feed {
        assert s == [s[0]] + s[1..];
      }
    }
  }

  /** Each feed's articles appear in the collected list exactly as that feed's
      filter yields them: every kept entry, once each, in feed order. With the
      feed-by-feed order of `FetchNews` this fixes its result entirely. */
  lemma FetchNewsPerFeed(bigpara: seq<FeedEntry>, bloombergHT: seq<FeedEntry>, reutersTR: seq<FeedEntry>, now: int, src: Source)
    ensures FromSource(FetchNews(bigpara, bloombergHT, reutersTR, now), src)
         == match src
            case Bigpara => RecentEntries(Bigpara, bigpara, now)
            case BloombergHT => RecentEntries(BloombergHT, bloombergHT, now)
            case ReutersTR => RecentEntries(ReutersTR, reutersTR, now)
  {
    var b := RecentEntries(Bigpara, bigpara, now);
    var h := RecentEntries(BloombergHT, bloombergHT, now);
    var r := RecentEntries(ReutersTR, reutersTR, now);
    FromSourceAppend(b + h, r, src);
    FromSourceAppend(b, h, src);
    FromSourceUniform(b, Bigpara, src);
    FromSourceUniform(h, BloombergHT, src);
    FromSourceUniform(r, ReutersTR, src);
  }
}

=== FILE: scoring.dfy ===
/** Relevance scoring of one article (app.py `score_news`): keyword weights,
    a bonus for trusted sources and a recency bonus that decays over three
    hours. Scores are exact reals; the source computes them in floating point. */
module Scoring {
  import opened Text
  import opened News
  import opened Seqs

  /** `KEYWORDS["high"]` and `KEYWORDS["medium"]` as the score searches for
      them, after the `kw.lower()` it applies to each entry ("TCMB" becomes
      "tcmb", "Fed" becomes "fed", and so on). */
  const HighTerms: seq<string> := ["tcmb", "faiz", "enflasyon", "fed", "ecb", "bilanço", "kap"]
  const MediumTerms: seq<string> := ["bist", "endeks", "döviz", "cds", "rezerv", "petrol"]

  const HighWeight: nat := 3
  const MediumWeight: nat := 1
  const TrustedWeight: nat := 2
  const MaxRecencyBonus: real := 3.0
  const SecondsPerDay: int := 24 * SecondsPerHour

  /** The largest score any article can reach: every keyword, a trusted
      source and a full recency bonus, 3·7 + 1·6 + 2 + 3. */
  const MaxScore: real := 32.0

  /** No keyword is listed twice. */
  lemma KeywordListsDistinct()
    ensures Distinct(HighTerms) && Distinct(MediumTerms)
  {
  }

  /** The sources whose articles earn the trust bonus. */
  predicate Trusted(source: Source)
  {
    source == ReutersTR || source == BloombergHT
  }

  function SourcePoints(source: Source): nat
  {
    if Trusted(source) then TrustedWeight else 0
  }

  /** `timedelta.seconds` of a difference of `delta` seconds: Python normalises
      a timedelta to whole days plus a remainder in [0, 86400), and `.seconds`
      is that remainder, whatever the sign of `delta`. */
  function TimedeltaSeconds(delta: int): (s: nat)
    ensures s < SecondsPerDay
    ensures (delta - s) % SecondsPerDay == 0
  {
    delta % SecondsPerDay
  }

  /** The age the score uses: `(now - published).seconds`. */
  function Elapsed(now: int, published: int): (s: nat)
    ensures s < SecondsPerDay
  {
    TimedeltaSeconds(now - published)
  }

  /** `max(0, 3 - hours_old)` with `hours_old = seconds / 3600`. */
  function RecencyBonus(seconds: nat): (b: real)
    ensures 0.0 <= b <= MaxRecencyBonus
    ensures b == 0.0 <==> seconds >= 3 * SecondsPerHour
    ensures seconds == 0 ==> b == MaxRecencyBonus
  {
    var hoursOld := seconds as real / SecondsPerHour as real;
    if MaxRecencyBonus - hoursOld > 0.0 then MaxRecencyBonus - hoursOld else 0.0
  }

  /** The bonus decays: an older article never gets a larger bonus. */
  lemma RecencyBonusNonIncreasing(s1: nat, s2: nat)
    requires s1 <= s2
    ensures RecencyBonus(s2) <= RecencyBonus(s1)
  {
  }

  /** Within a day after publication the age is the true age. */
  lemma ElapsedWithinADay(now: int, published: int)
    requires published <= now < published + SecondsPerDay
    ensures Elapsed(now, published) == now - published
  {
  }

  /** Because `.seconds` drops the negative day count, an article stamped up to
      21 hours in the future looks between 3 and 24 hours old and gets no
      recency bonus, while one stamped exactly now gets the full bonus. */
  lemma FutureDatedArticleGetsNoBonus(now: int, published: int)
    requires now < published <= now + SecondsPerDay - 3 * SecondsPerHour
    ensures Elapsed(now, published) == SecondsPerDay - (published - now)
    ensures RecencyBonus(Elapsed(now, published)) == 0.0
  {
    assert now - published == -1 * SecondsPerDay + (SecondsPerDay - (published - now));
  }

  /** The points the loop `for kw in terms: if kw in text: score += weight` adds. */
  function KeywordPoints(text: string, terms: seq<string>, weight: nat): (p: nat)
    ensures p <= weight * |terms|
  {
    if terms == [] then 0
    else
      var rest := KeywordPoints(text, terms[1..], weight);
      assert weight * |terms| == weight + weight * |terms[1..]|;
      (if Contains(text, terms[0]) then weight else 0) + rest
  }

  /** The distinct keywords of `terms` that occur in `text`. */
  function Hits(text: string, terms: seq<string>): set<string>
  {
    set k | k in terms && Contains(text, k)
  }

  /** Peeling the first keyword off a duplicate-free list: it is a hit of its
      own or not at all. */
  lemma HitsCons(text: string, terms: seq<string>)
    requires |terms| > 0 && Distinct(terms)
    ensures Distinct(terms[1..])
    ensures |Hits(text, terms)| == (if Contains(text, terms[0]) then 1 else 0) + |Hits(text, terms[1..])|
  {
    DistinctTail(terms);
    var head: set<string> := if Contains(text, terms[0]) then {terms[0]} else {};
    var tail := Hits(text, terms[1..]);
    assert forall k :: k in terms <==> k == terms[0] || k in terms[1..];
    assert Hits(text, terms) == head + tail;
    assert head !! tail;
  }

  /** Each listed keyword that occurs adds its weight once, however often it
      occurs: the points are the weight times the number of distinct hits. */
  lemma {:induction false} PointsCountDistinctHits(text: string, terms: seq<string>, weight: nat)
    requires Distinct(terms)
    ensures KeywordPoints(text, terms, weight) == weight * |Hits(text, terms)|
    ensures |Hits(text, terms)| <= |terms|
  {
    if terms == [] {
      assert Hits(text, terms) == {};
    } else {
      HitsCons(text, terms);
      PointsCountDistinctHits(text, terms[1..], weight);
      var c := if Contains(text, terms[0]) then 1 else 0;
      var n := |Hits(text, terms[1..])|;
      assert weight * (c + n) == weight * c + weight * n;
    }
  }

  /** `score_news(article)` at clock reading `now`. */
  function Score(a: Article, now: int): (r: real)
    ensures 0.0 <= r <= MaxScore
  {
    var text := ArticleText(a);
    (KeywordPoints(text, HighTerms, HighWeight) + KeywordPoints(text, MediumTerms, MediumWeight)
      + SourcePoints(a.source)) as real
      + RecencyBonus(Elapsed(now, a.published))
  }

  /** The score decomposes exactly: 3 per distinct high keyword present, 1 per
      distinct medium keyword present, 2 for a trusted source, plus the recency
      bonus computed from `.seconds`. */
  lemma ScoreDecomposition(a: Article, now: int)
    ensures |Hits(ArticleText(a), HighTerms)| <= |HighTerms| == 7
    ensures |Hits(ArticleText(a), MediumTerms)| <= |MediumTerms| == 6
    ensures Score(a, now)
         == (3 * |Hits(ArticleText(a), HighTerms)| + |Hits(ArticleText(a), MediumTerms)|) as real
            + (if a.source in {ReutersTR, BloombergHT} then 2.0 else 0.0)
            + RecencyBonus(Elapsed(now, a.published))
  {
    KeywordListsDistinct();
    PointsCountDistinctHits(ArticleText(a), HighTerms, HighWeight);
    PointsCountDistinctHits(ArticleText(a), MediumTerms, MediumWeight);
  }

  /** The score reads nothing but the text, the source and the age: two
      articles that agree on all three score the same. */
  lemma ScoreDependsOnTextSourceAge(a: Article, b: Article, now: int, later: int)
    requires ArticleText(a) == ArticleText(b) && a.source == b.source
    requires Elapsed(now, a.published) == Elapsed(later, b.published)
    ensures Score(a, now) == Score(b, later)
  {
  }
}

=== FILE: sectors.dfy ===
/** Sector tagging of an article (app.py `sector_impact`) and the per-sector
    sentiment heat of the selected articles (app.py `sector_heat`). */
module Sectors {
  import opened Text
  import opened News
  import opened Narrative
  import opened Seqs

  datatype Sector = Banking | Industrial | Energy | BroadMarket

  /** The keyword group of each sector, searched in the lower-cased title and summary. */
  const BankingTerms: seq<string> := ["faiz", "tcmb", "banka", "kredi", "mevduat"]
  const IndustrialTerms: seq<string> := ["sanayi", "üretim", "ihracat", "fabrika"]
  const EnergyTerms: seq<string> := ["enerji", "petrol", "doğalgaz", "elektrik"]

  /** The words `sector_heat` reads as good or bad news. */
  const PositiveTerms: seq<string> := ["artış", "yükseliş", "güçlü", "rekor", "olumlu"]
  const NegativeTerms: seq<string> := ["düşüş", "gerileme", "zayıf", "baskı", "risk"]

  /** Position of a sector in the order `sector_impact` appends tags. */
  function Rank(s: Sector): nat
  {
    match s
    case Banking => 0
    case Industrial => 1
    case Energy => 2
    case BroadMarket => 3
  }

  /** The sector's keyword group is mentioned in the text; the fallback tag
      has no group of its own. */
  predicate Matches(text: string, s: Sector)
  {
    match s
    case Banking => Mentions(text, BankingTerms)
    case Industrial => Mentions(text, IndustrialTerms)
    case Energy => Mentions(text, EnergyTerms)
    case BroadMarket => false
  }

  /** `sector_impact(news)`: every sector whose group is mentioned in the
      article text, in the order Banking, Industrial, Energy; when none is,
      the single tag Broad Market. */
  function SectorImpact(a: Article): (r: seq<Sector>)
    ensures r != []
    ensures r == [BroadMarket]
        <==> !Matches(ArticleText(a), Banking) && !Matches(ArticleText(a), Industrial)
             && !Matches(ArticleText(a), Energy)
    ensures BroadMarket in r ==> r == [BroadMarket]
    ensures forall s :: s != BroadMarket ==> (s in r <==> Matches(ArticleText(a), s))
    ensures forall i, j :: 0 <= i < j < |r| ==> Rank(r[i]) < Rank(r[j])
  {
    var text := ArticleText(a);
    ContainsAnyIff(text, BankingTerms);
    ContainsAnyIff(text, IndustrialTerms);
    ContainsAnyIff(text, EnergyTerms);
    var tags := (if ContainsAny(text, BankingTerms) then [Banking] else [])
              + (if ContainsAny(text, IndustrialTerms) then [Industrial] else [])
              + (if ContainsAny(text, EnergyTerms) then [Energy] else []);
    assert BroadMarket !in tags;
    if tags == [] then [BroadMarket] else tags
  }

  /** Sorted by rank means no tag appears twice. */
  lemma TagsDistinct(a: Article)
    ensures Distinct(SectorImpact(a))
  {
  }

  /** An article whose rationale is monetary policy is always tagged Banking:
      "faiz" and "tcmb" are banking keywords too, and "merkez bankası"
      contains "banka"; the title is part of the searched text. */
  lemma MonetaryRationaleImpliesBanking(a: Article)
    requires RuleFor(a.title) == MonetaryPolicy
    ensures Banking in SectorImpact(a)
  {
    var t := Lower(a.title);
    var i :| 0 <= i < |MonetaryTerms| && Contains(t, MonetaryTerms[i]);
    var kw: string;
    if i == 0 {
      kw := "faiz";
      assert BankingTerms[0] == kw;
    } else if i == 1 {
      kw := "tcmb";
      assert BankingTerms[1] == kw;
    } else {
      kw := "banka";
      assert BankingTerms[2] == kw;
      var mb := MonetaryTerms[2];
      assert mb[7..12] == kw;
      assert OccursAt(mb, kw, 7);
      ContainsIffOccurs(mb, kw);
      ContainsTransitive(t, mb, kw);
    }
    TitleInText(a, kw);
    assert Matches(ArticleText(a), Banking);
  }

  /** `sentiment` of one article: +1 for any positive word, -1 for any
      negative word, both applied, so an article with both scores 0. */
  function Sentiment(a: Article): (v: int)
    ensures -1 <= v <= 1
    ensures v == 1
        <==> Mentions(ArticleText(a), PositiveTerms) && !Mentions(ArticleText(a), NegativeTerms)
    ensures v == -1
        <==> !Mentions(ArticleText(a), PositiveTerms) && Mentions(ArticleText(a), NegativeTerms)
    ensures v == 0
        <==> (Mentions(ArticleText(a), PositiveTerms) <==> Mentions(ArticleText(a), NegativeTerms))
  {
    var text := ArticleText(a);
    ContainsAnyIff(text, PositiveTerms);
    ContainsAnyIff(text, NegativeTerms);
    (if ContainsAny(text, PositiveTerms) then 1 else 0) - (if ContainsAny(text, NegativeTerms) then 1 else 0)
  }

  /** The sectors `sector_heat` keeps a total for; Broad Market is not one. */
  const HeatSectors: set<Sector> := {Banking, Industrial, Energy}

  const InitialHeat: map<Sector, int> := map[Banking := 0, Industrial := 0, Energy := 0]

  /** The inner loop: add `delta` to each tag's total, skipping tags without one. */
  function AddToTags(heat: map<Sector, int>, tags: seq<Sector>, delta: int): (h: map<Sector, int>)
    ensures h.Keys == heat.Keys
  {
    if tags == [] then heat
    else
      var s := tags[0];
      AddToTags(if s in heat then heat[s := heat[s] + delta] else heat, tags[1..], delta)
  }

  /** The outer loop over the articles, in order. */
  function Accumulate(heat: map<Sector, int>, news: seq<Article>): (h: map<Sector, int>)
    ensures h.Keys == heat.Keys
  {
    if news == [] then heat
    else Accumulate(AddToTags(heat, SectorImpact(news[0]), Sentiment(news[0])), news[1..])
  }

  /** Reference definition of a sector's total: the sum of the sentiments of
      the articles tagged with that sector. */
  function TaggedSum(news: seq<Article>, s: Sector): int
  {
    if news == [] then 0
    else (if s in SectorImpact(news[0]) then Sentiment(news[0]) else 0) + TaggedSum(news[1..], s)
  }

  /** With duplicate-free tags, the inner loop adds `delta` once to each
      tagged sector that has a total and leaves the other totals alone. */
  lemma {:induction false} AddToTagsEffect(heat: map<Sector, int>, tags: seq<Sector>, delta: int, s: Sector)
    requires Distinct(tags)
    requires s in heat
    ensures AddToTags(heat, tags, delta)[s] == heat[s] + (if s in tags then delta else 0)
  {
    if tags != [] {
      var t := tags[0];
      var next := if t in heat then heat[t := heat[t] + delta] else heat;
      DistinctTail(tags);
      AddToTagsEffect(next, tags[1..], delta, s);
    }
  }

  /** The outer loop adds, to each total, the tagged sum of the articles. */
  lemma {:induction false} AccumulateEffect(heat: map<Sector, int>, news: seq<Article>, s: Sector)
    requires s in heat
    ensures Accumulate(heat, news)[s] == heat[s] + TaggedSum(news, s)
  {
    if news != [] {
      var next := AddToTags(heat, SectorImpact(news[0]), Sentiment(news[0]));
      TagsDistinct(news[0]);
      AddToTagsEffect(heat, SectorImpact(news[0]), Sentiment(news[0]), s);
      AccumulateEffect(next, news[1..], s);
    }
  }

  datatype HeatLabel = Positive | Negative | Neutral {

    /** The text the dashboard shows for a label. */
    function Display(): string
    {
      match this
      case Positive => "\U{1F525} Positive"
      case Negative => "\U{2744}\U{FE0F} Negative"
      case Neutral => "\U{2796} Neutral"
    }
  }

  /** The dashboard shows the three labels as three different texts. */
  lemma DisplaysDistinct(l1: HeatLabel, l2: HeatLabel)
    requires l1 != l2
    ensures l1.Display() != l2.Display()
  {
    assert l1.Display()[0] != l2.Display()[0];
  }

  /** The three-way projection of a total. */
  function Label(total: int): (l: HeatLabel)
    ensures l == Positive <==> total > 0
    ensures l == Negative <==> total < 0
    ensures l == Neutral <==> total == 0
  {
    if total > 0 then Positive else if total < 0 then Negative else Neutral
  }

  /** `sector_heat(top_news)`: exactly the keys Banking, Industrial and Energy,
      each labelled by the sign of the summed sentiment of the articles tagged
      with it. */
  function SectorHeat(news: seq<Article>): (labels: map<Sector, HeatLabel>)
    ensures labels.Keys == HeatSectors
    ensures BroadMarket !in labels
    ensures forall s :: s in labels ==> labels[s] == Label(TaggedSum(news, s))
  {
    var totals := Accumulate(InitialHeat, news);
    assert InitialHeat.Keys == HeatSectors;
    forall s | s in totals ensures totals[s] == TaggedSum(news, s) {
      AccumulateEffect(InitialHeat, news, s);
    }
    map s | s in totals :: Label(totals[s])
  }

  /** A sector no selected article is tagged with stays Neutral. */
  lemma UntaggedSectorIsNeutral(news: seq<Article>, s: Sector)
    requires s in HeatSectors
    requires forall i :: 0 <= i < |news| ==> s !in SectorImpact(news[i])
    ensures SectorHeat(news)[s] == Neutral
  {
    UntaggedSumIsZero(news, s);
  }

  lemma {:induction false} UntaggedSumIsZero(news: seq<Article>, s: Sector)
    requires forall i :: 0 <= i < |news| ==> s !in SectorImpact(news[i])
    ensures TaggedSum(news, s) == 0
  {
    if news != [] {
      assert forall i :: 0 <= i < |news[1..]| ==> news[1..][i] == news[i + 1];
      UntaggedSumIsZero(news[1..], s);
    }
  }
}

=== FILE: selection.dfy ===
/** Top-N selection (app.py `select_top_news`): every article gets its score,
    the list is sorted by score, highest first, with a stable sort, and the
    first `n` records are returned. */
module Selection {
  import opened News
  import opened Scoring

  /** An article together with the score `select_top_news` attaches to it. */
  datatype Scored = Scored(article: Article, score: real)

  /** The `n` the dashboard uses. */
  const DefaultTopN: int := 3

  /** `for a in articles: a["score"] = score_news(a)`. `score_news` reads the
      clock itself, so each article is scored at its own reading:
      `clocks[i]` is the reading taken while scoring `articles[i]`. */
  function AttachScores(articles: seq<Article>, clocks: seq<int>): (r: seq<Scored>)
    requires |clocks| == |articles|
    ensures |r| == |articles|
    ensures forall i :: 0 <= i < |r| ==> r[i] == Scored(articles[i], Score(articles[i], clocks[i]))
  {
    seq(|articles|, i requires 0 <= i < |articles| => Scored(articles[i], Score(articles[i], clocks[i])))
  }

  /** Non-increasing scores from front to back. */
  predicate SortedDesc(s: seq<Scored>)
  {
    forall i, j :: 0 <= i < j < |s| ==> s[i].score >= s[j].score
  }

  /** The records of `s` whose score is `k`, in their order in `s`. A sort is
      stable exactly when it leaves each of these subsequences unchanged. */
  function WithScore(s: seq<Scored>, k: real): seq<Scored>
  {
    if s == [] then []
    else (if s[0].score == k then [s[0]] else []) + WithScore(s[1..], k)
  }

  lemma {:induction false} WithScoreAppend(a: seq<Scored>, b: seq<Scored>, k: real)
    ensures WithScore(a + b, k) == WithScore(a, k) + WithScore(b, k)
  {
    if a != [] {
      assert (a + b)[0] == a[0];
      assert (a + b)[1..] == a[1..] + b;
      WithScoreAppend(a[1..], b, k);
    } else {
      assert a + b == b;
    }
  }

  lemma {:induction false} WithScoreMembers(s: seq<Scored>, k: real)
    ensures forall y :: y in WithScore(s, k) ==> y in s && y.score == k
  {
    if s != [] {
      WithScoreMembers(s[1..], k);
    }
  }

  /** The first record of a list is among the records of its own score. */
  lemma WithScoreOfFirst(s: seq<Scored>)
    requires s != []
    ensures WithScore(s, s[0].score) == [s[0]] + WithScore(s[1..], s[0].score)
  {
  }

  /** Places `x` in front of the first record that does not outscore it, so
      `x` precedes every record of equal score. */
  function Insert(x: Scored, t: seq<Scored>): (r: seq<Scored>)
    ensures |r| == |t| + 1
    ensures multiset(r) == multiset(t) + multiset{x}
  {
    if t == [] || t[0].score <= x.score then [x] + t
    else
      assert t == [t[0]] + t[1..];
      [t[0]] + Insert(x, t[1..])
  }

  /** Inserting into a sorted list keeps it sorted. */
  lemma {:induction false} InsertSorted(x: Scored, t: seq<Scored>)
    requires SortedDesc(t)
    ensures SortedDesc(Insert(x, t))
  {
    if t != [] && t[0].score > x.score {
      var r' := Insert(x, t[1..]);
      InsertSorted(x, t[1..]);
      forall j | 0 <= j < |r'| ensures t[0].score >= r'[j].score {
        assert r'[j] in multiset(r');
        if r'[j] != x {
          assert r'[j] in t[1..];
        }
      }
      assert Insert(x, t) == [t[0]] + r';
    }
  }

  /** Stable sort, highest score first: each record is inserted, from the back
      of the list to the front, ahead of the records of equal score that
      follow it in the input. */
  function InsertionSort(s: seq<Scored>): (r: seq<Scored>)
    ensures |r| == |s|
    ensures multiset(r) == multiset(s)
    ensures SortedDesc(r)
  {
    if s == [] then []
    else
      assert s == [s[0]] + s[1..];
      InsertSorted(s[0], InsertionSort(s[1..]));
      Insert(s[0], InsertionSort(s[1..]))
  }

  lemma {:induction false} InsertWithScore(x: Scored, t: seq<Scored>, k: real)
    ensures WithScore(Insert(x, t), k) == (if x.score == k then [x] else []) + WithScore(t, k)
  {
    if t == [] || t[0].score <= x.score {
      assert ([x] + t)[1..] == t;
    } else {
      InsertWithScore(x, t[1..], k);
      assert ([t[0]] + Insert(x, t[1..]))[1..] == Insert(x, t[1..]);
    }
  }

  /** The sort is stable: for every score, the records with that score come
      out in the order they went in. */
  lemma {:induction false} InsertionSortStable(s: seq<Scored>, k: real)
    ensures WithScore(InsertionSort(s), k) == WithScore(s, k)
  {
    if s != [] {
      InsertionSortStable(s[1..], k);
      InsertWithScore(s[0], InsertionSort(s[1..]), k);
    }
  }

  /** What Python's `list.sort(key=score, reverse=True)` guarantees of its
      result: sorted highest first, and stable. */
  ghost predicate IsStableDescSort(out: seq<Scored>, input: seq<Scored>)
  {
    SortedDesc(out) && forall k :: WithScore(out, k) == WithScore(input, k)
  }

  lemma InsertionSortIsStableDescSort(s: seq<Scored>)
    ensures IsStableDescSort(InsertionSort(s), s)
  {
    forall k ensures WithScore(InsertionSort(s), k) == WithScore(s, k) {
      InsertionSortStable(s, k);
    }
  }

  /** A stable descending sort has only one possible result: two sequences
      that are both sorted highest first and have the same records of every
      score in the same order are equal. So any stable sort, whatever its
      algorithm, returns what `InsertionSort` returns. */
  lemma {:induction false} StableSortsAgree(a: seq<Scored>, b: seq<Scored>)
    requires SortedDesc(a) && SortedDesc(b)
    requires forall k :: WithScore(a, k) == WithScore(b, k)
    ensures a == b
  {
    if a == [] && b == [] {
    } else if a == [] || b == [] {
      var c := if a == [] then b else a;
      WithScoreOfFirst(c);
      assert false;
    } else {
      WithScoreMembers(a, b[0].score);
      WithScoreMembers(b, a[0].score);
      assert WithScore(a, b[0].score) != [] && WithScore(b, a[0].score) != [];
      assert WithScore(a, b[0].score)[0] in a;
      assert WithScore(b, a[0].score)[0] in b;
      assert a[0].score == b[0].score;
      var k0 := a[0].score;
      assert WithScore(a, k0) == [a[0]] + WithScore(a[1..], k0);
      assert WithScore(b, k0) == [b[0]] + WithScore(b[1..], k0);
      assert a[0] == b[0];
      forall k ensures WithScore(a[1..], k) == WithScore(b[1..], k) {
        assert WithScore(a, k) == WithScore(b, k);
        if k == k0 {
          assert WithScore(a, k)[1..] == WithScore(a[1..], k);
          assert WithScore(b, k)[1..] == WithScore(b[1..], k);
        } else {
          assert WithScore(a, k) == [] + WithScore(a[1..], k) == WithScore(a[1..], k);
          assert WithScore(b, k) == [] + WithScore(b[1..], k) == WithScore(b[1..], k);
        }
      }
      StableSortsAgree(a[1..], b[1..]);
      assert a == [a[0]] + a[1..] && b == [b[0]] + b[1..];
    }
  }

  /** Python's `s[:n]`: the first `n` items, or with a negative `n` all but
      the last `-n`. */
  function PyTake<T>(s: seq<T>, n: int): (r: seq<T>)
    ensures 0 <= n ==> |r| == if n < |s| then n else |s|
    ensures n < 0 ==> |r| == if -n < |s| then |s| + n else 0
    ensures r == s[..|r|]
  {
    if n >= |s| then s
    else if n >= 0 then s[..n]
    else if |s| + n >= 0 then s[..|s| + n]
    else []
  }

  /** Every scored record is an input article carrying the score of its own
      clock reading. */
  lemma ScoredRecords(articles: seq<Article>, clocks: seq<int>)
    requires |clocks| == |articles|
    ensures forall x :: x in multiset(AttachScores(articles, clocks)) ==>
              exists i :: 0 <= i < |articles| && x.article == articles[i] && x.score == Score(articles[i], clocks[i])
  {
    var scored := AttachScores(articles, clocks);
    forall x: Scored | x in multiset(scored)
      ensures exists i :: 0 <= i < |articles| && x.article == articles[i] && x.score == Score(articles[i], clocks[i])
    {
      var i :| 0 <= i < |scored| && scored[i] == x;
    }
  }

  /** A leading part of a list holds no record the list does not hold. */
  lemma PrefixMultiset(s: seq<Scored>, m: int)
    requires 0 <= m <= |s|
    ensures multiset(s[..m]) <= multiset(s)
    ensures multiset(s) - multiset(s[..m]) == multiset(s[m..])
  {
    assert s == s[..m] + s[m..];
  }

  /** `select_top_news(articles, n)`, with `clocks` the readings taken while
      scoring each article. */
  function SelectTop(articles: seq<Article>, n: int, clocks: seq<int>): (r: seq<Scored>)
    requires |clocks| == |articles|
    ensures 0 <= n ==> |r| == if n < |articles| then n else |articles|
    ensures n < 0 ==> |r| == if -n < |articles| then |articles| + n else 0
    ensures SortedDesc(r)
    ensures multiset(r) <= multiset(AttachScores(articles, clocks))
  {
    var scored := AttachScores(articles, clocks);
    var sorted := InsertionSort(scored);
    var r := PyTake(sorted, n);
    PrefixMultiset(sorted, |r|);
    r
  }

  /** Called with the default `n = 3`, at most three records come back, and
      exactly three when there are at least three articles. */
  lemma DefaultSelectionSize(articles: seq<Article>, clocks: seq<int>)
    requires |clocks| == |articles|
    ensures |SelectTop(articles, DefaultTopN, clocks)| <= 3
    ensures |articles| >= 3 ==> |SelectTop(articles, DefaultTopN, clocks)| == 3
  {
  }

  /** Every returned record is an input article carrying the score of its own
      clock reading. */
  lemma SelectTopRecordsFromInput(articles: seq<Article>, n: int, clocks: seq<int>)
    requires |clocks| == |articles|
    ensures forall x :: x in SelectTop(articles, n, clocks) ==>
              exists i :: 0 <= i < |articles| && x.article == articles[i] && x.score == Score(articles[i], clocks[i])
  {
    var r := SelectTop(articles, n, clocks);
    ScoredRecords(articles, clocks);
    assert forall x :: x in r ==> x in multiset(r);
  }

  /** The selection is the front of the stable sort, so its result does not
      depend on which stable sorting algorithm produced it. */
  lemma SelectTopIsFrontOfStableSort(articles: seq<Article>, n: int, clocks: seq<int>, sorted: seq<Scored>)
    requires |clocks| == |articles|
    requires IsStableDescSort(sorted, AttachScores(articles, clocks))
    ensures SelectTop(articles, n, clocks) == PyTake(sorted, n)
  {
    var scored := AttachScores(articles, clocks);
    InsertionSortIsStableDescSort(scored);
    StableSortsAgree(InsertionSort(scored), sorted);
  }

  /** Truncation keeps stability: for each score, the returned records of that
      score are a leading part of the input's records of that score, in input
      order. */
  lemma SelectTopKeepsInputOrder(articles: seq<Article>, n: int, clocks: seq<int>, k: real)
    requires |clocks| == |articles|
    ensures WithScore(SelectTop(articles, n, clocks), k) <= WithScore(AttachScores(articles, clocks), k)
  {
    var scored := AttachScores(articles, clocks);
    var sorted := InsertionSort(scored);
    var r := SelectTop(articles, n, clocks);
    assert sorted == r + sorted[|r|..];
    WithScoreAppend(r, sorted[|r|..], k);
    InsertionSortStable(scored, k);
  }

  /** In a sorted list, no record behind position `m` outscores one before it. */
  lemma SortedFrontDominates(sorted: seq<Scored>, m: int)
    requires SortedDesc(sorted) && 0 <= m <= |sorted|
    ensures forall x, y :: x in sorted[..m] && y in multiset(sorted[m..]) ==> y.score <= x.score
  {
    forall x: Scored, y: Scored | x in sorted[..m] && y in multiset(sorted[m..]) ensures y.score <= x.score {
      var i :| 0 <= i < m && sorted[..m][i] == x;
      var j :| 0 <= j < |sorted| - m && sorted[m..][j] == y;
      assert sorted[i] == x && sorted[m + j] == y;
    }
  }

  /** Nothing left out outscores anything selected. */
  lemma SelectTopOmitsNoHigher(articles: seq<Article>, n: int, clocks: seq<int>)
    requires |clocks| == |articles|
    ensures forall x, y ::
              x in SelectTop(articles, n, clocks)
              && y in multiset(AttachScores(articles, clocks)) - multiset(SelectTop(articles, n, clocks))
              ==> y.score <= x.score
  {
    var scored := AttachScores(articles, clocks);
    var sorted := InsertionSort(scored);
    var m := |SelectTop(articles, n, clocks)|;
    assert SelectTop(articles, n, clocks) == sorted[..m];
    PrefixMultiset(sorted, m);
    SortedFrontDominates(sorted, m);
  }
}

=== FILE: seqs.dfy ===
/** Facts about sequences shared by the keyword lists and the sector tags. */
module Seqs {

  /** No element appears twice. */
  predicate Distinct<T(==)>(s: seq<T>)
  {
    forall i, j :: 0 <= i < j < |s| ==> s[i] != s[j]
  }

  /** Dropping the first element keeps a sequence duplicate-free and leaves
      that element out of the rest. */
  lemma DistinctTail<T>(s: seq<T>)
    requires |s| > 0 && Distinct(s)
    ensures Distinct(s[1..]) && s[0] !in s[1..]
  {
    var rest := s[1..];
    forall i, j | 0 <= i < j < |rest| ensures rest[i] != rest[j] {
      assert rest[i] == s[i + 1] && rest[j] == s[j + 1];
    }
    forall i | 0 <= i < |rest| ensures rest[i] != s[0] {
      assert rest[i] == s[i + 1];
    }
  }
}

=== FILE: text.dfy ===
/** Text primitives the pipeline is built from: lower-casing and Python's
    substring test `kw in text`. Strings are sequences of Unicode scalar values. */
module Text {

  /** True of the capital letters this model lower-cases. */
  predicate IsUpper(c: char)
  {
    || ('A' <= c <= 'Z')
    || ('À' <= c <= 'Þ' && c != '×')
    || c == 'Ğ' || c == 'Ş' || c == 'İ'
  }

  /** Python's `str.lower` on one character, for ASCII, the Latin-1 capitals
      and the Turkish capitals Ğ, Ş and dotted İ. Like Python, dotted capital İ
      becomes two characters: `i` followed by a combining dot above. Every other
      character is left unchanged. */
  function LowerChar(c: char): (r: string)
    ensures 1 <= |r| <= 2
    ensures !IsUpper(c) <==> r == [c]
    ensures forall i :: 0 <= i < |r| ==> !IsUpper(r[i])
  {
    if 'A' <= c <= 'Z' then [(c as int + 32) as char]
    else if 'À' <= c <= 'Þ' && c != '×' then [(c as int + 32) as char]
    else if c == 'Ğ' then ['ğ']
    else if c == 'Ş' then ['ş']
    else if c == 'İ' then ['i', '̇']
    else [c]
  }

  /** `s.lower()`: each character lowered in place, in order. */
  function Lower(s: string): (r: string)
    ensures |s| <= |r| <= 2 * |s|
    ensures forall i :: 0 <= i < |r| ==> !IsUpper(r[i])
  {
    if s == [] then [] else LowerChar(s[0]) + Lower(s[1..])
  }

  /** Lower-casing works character by character, so it distributes over concatenation. */
  lemma {:induction false} LowerAppend(a: string, b: string)
    ensures Lower(a + b) == Lower(a) + Lower(b)
  {
    if a == [] {
      assert a + b == b;
    } else {
      assert (a + b)[0] == a[0];
      assert (a + b)[1..] == a[1..] + b;
      LowerAppend(a[1..], b);
    }
  }

  /** A string without capitals is its own lower-case form. */
  lemma {:induction false} LowerOfLowercase(s: string)
    requires forall i :: 0 <= i < |s| ==> !IsUpper(s[i])
    ensures Lower(s) == s
  {
    if s != [] {
      assert !IsUpper(s[0]);
      LowerOfLowercase(s[1..]);
    }
  }

  /** Lower-casing twice is the same as lower-casing once. */
  lemma LowerIdempotent(s: string)
    ensures Lower(Lower(s)) == Lower(s)
  {
    LowerOfLowercase(Lower(s));
  }

  /** Python `kw in text` by its meaning: `kw` occurs in `text` starting at index `i`. */
  predicate OccursAt(text: string, kw: string, i: int)
  {
    0 <= i && i + |kw| <= |text| && text[i..i + |kw|] == kw
  }

  /** Python `kw in text`, computed by trying each start position in turn.
      The empty keyword occurs in every text. */
  predicate Contains(text: string, kw: string)
  {
    |kw| <= |text| && (text[..|kw|] == kw || Contains(text[1..], kw))
  }

  /** The computation agrees with the meaning: `kw in text` holds exactly
      when some start index carries an occurrence. */
  lemma {:induction false} ContainsIffOccurs(text: string, kw: string)
    ensures Contains(text, kw) <==> exists i :: OccursAt(text, kw, i)
  {
    if |kw| > |text| {
    } else if text[..|kw|] == kw {
      assert OccursAt(text, kw, 0);
    } else {
      ContainsIffOccurs(text[1..], kw);
      if Contains(text[1..], kw) {
        var i :| OccursAt(text[1..], kw, i);
        assert text[1..][i..i + |kw|] == text[i + 1..i + 1 + |kw|];
        assert OccursAt(text, kw, i + 1);
      }
      if j :| OccursAt(text, kw, j) {
        assert j != 0;
        assert text[1..][j - 1..j - 1 + |kw|] == text[j..j + |kw|];
        assert OccursAt(text[1..], kw, j - 1);
      }
    }
  }

  /** An occurrence in a part is an occurrence in the whole. */
  lemma ContainsInConcat(a: string, b: string, kw: string)
    ensures Contains(a, kw) ==> Contains(a + b, kw)
    ensures Contains(b, kw) ==> Contains(a + b, kw)
  {
    ContainsIffOccurs(a, kw);
    ContainsIffOccurs(b, kw);
    ContainsIffOccurs(a + b, kw);
    if Contains(a, kw) {
      var i :| OccursAt(a, kw, i);
      assert (a + b)[i..i + |kw|] == a[i..i + |kw|];
      assert OccursAt(a + b, kw, i);
    }
    if Contains(b, kw) {
      var i :| OccursAt(b, kw, i);
      assert (a + b)[|a| + i..|a| + i + |kw|] == b[i..i + |kw|];
      assert OccursAt(a + b, kw, |a| + i);
    }
  }

  /** Substring containment is transitive. */
  lemma ContainsTransitive(text: string, mid: string, kw: string)
    requires Contains(text, mid) && Contains(mid, kw)
    ensures Contains(text, kw)
  {
    ContainsIffOccurs(text, mid);
    ContainsIffOccurs(mid, kw);
    ContainsIffOccurs(text, kw);
    var i :| OccursAt(text, mid, i);
    var j :| OccursAt(mid, kw, j);
    assert forall k :: 0 <= k < |kw| ==> kw[k] == mid[j + k] == text[i + j + k];
    assert text[i + j..i + j + |kw|] == kw;
    assert OccursAt(text, kw, i + j);
  }

  /** Python `any(k in text for k in kws)`, scanning the keywords in order. */
  predicate ContainsAny(text: string, kws: seq<string>)
  {
    |kws| > 0 && (Contains(text, kws[0]) || ContainsAny(text, kws[1..]))
  }

  /** Some keyword of `kws` occurs in the text. */
  predicate Mentions(text: string, kws: seq<string>)
  {
    exists i :: 0 <= i < |kws| && Contains(text, kws[i])
  }

  /** `any(...)` holds exactly when one of the keywords occurs in the text. */
  lemma {:induction false} ContainsAnyIff(text: string, kws: seq<string>)
    ensures ContainsAny(text, kws) <==> Mentions(text, kws)
  {
    if |kws| > 0 {
      ContainsAnyIff(text, kws[1..]);
      if i :| 1 <= i < |kws| && Contains(text, kws[i]) {
        assert kws[1..][i - 1] == kws[i];
      }
      if ContainsAny(text, kws[1..]) {
        var i :| 0 <= i < |kws[1..]| && Contains(text, kws[1..][i]);
        assert kws[i + 1] == kws[1..][i];
      }
    }
  }
}

=== FILE: wrappers.dfy ===
/** Optional values, used for the fields a feed entry may lack. */
module Wrappers {

  datatype Option<+T> = None | Some(value: T) {

    /** The carried value, or `default` when there is none. */
    function GetOr(default: T): (r: T)
      ensures Some? ==> r == value
      ensures None? ==> r == default
    {
      match this
      case Some(v) => v
      case None => default
    }
  }
}
